=== FILE: README.md ===
# User list table: search, pagination and action dispatch

This project models the in-memory pipeline of `User_List_Table`, the
`WP_List_Table` subclass of the NDS WP List Table Demo plugin. The class lists
the site's registered users in the WordPress dashboard. For one admin-page
request, `prepare_items` does four things in order:

1. It handles row and bulk actions (`handle_table_actions`). A `view_usermeta`
   or `add_usermeta` row action, or a `bulk-download` bulk action, is checked
   against a nonce for its own scope. The request then ends with a 403 die, or
   the handler runs and the request exits.
2. Otherwise it takes the users fetched from the database, in the requested
   order.
3. It filters them by the trimmed, unslashed search key `s`, but only when that
   key is PHP-truthy. A row is kept when `stripos` finds the key in any of its
   four values: login, display name, registration date and ID.
4. It cuts out page `paged` with `array_slice`, and reports
   `total_items = count(data)` and `total_pages = ceil(total_items / per_page)`.

The modules follow that structure:

- `PhpString` (`php_string.dfy`) models the PHP built-ins the pipeline relies on.
  These are `trim`, `stripslashes` (behind `wp_unslash`), `addslashes` (the
  slashing WordPress applies to request parameters), `stripos` with ASCII case
  folding, string truthiness, and the decimal text the database returns for the
  numeric ID.
- `Request` (`request.dfy`) holds the request parameters as they appear in
  `$_REQUEST`, with an explicit "not set" case. It also holds `absint`.
- `UserRecord` (`user_record.dfy`) holds the fetched row, the declared and
  sortable columns, and the default query ordering.
- `SearchFilter` (`search_filter.dfy`) holds the search key, the truthiness gate
  and `filter_table_data`.
- `Pagination` (`pagination.dfy`) holds `array_slice`, the page slice and the page
  count.
- `TableActions` (`table_actions.dfy`) holds `handle_table_actions`, the nonce
  scopes, and the row-action links of `column_user_login`.
- `ListTable` (`list_table.dfy`) holds `prepare_items` end to end.

WordPress services are parameters of the model. Nonce creation is a function
`create(scope)`. Nonce verification is a predicate `verify(token, scope)`. The
page number and rows per page come from the base class, which guarantees
that both are at least 1.

Four details of the code are easy to miss, and the model keeps them:

- The search also looks at the registration date and the numeric ID, not only
  the text fields.
- The sort defaults (`user_registered`, `ASC`) apply only when `orderby` or
  `order` is absent. An invalid value is passed through.
- Actions are handled before the users are fetched, not after filtering.
- The key is trimmed before it is unslashed. A NUL the user sends reaches `trim`
  escaped as `\0`, so a NUL at the start or the end of the sent value stays in
  the key.

## Model

| member | source | states |
|---|---|---|
| PhpString.Trim | inc/admin/class-user-list-table.php:56 | `trim` returns the slice of its input between a leading and a trailing run of trim characters (space, tab, newline, carriage return, NUL, vertical tab), and the slice neither starts nor ends with one, so nothing else is removed |
| PhpString.TrimIdempotent | inc/admin/class-user-list-table.php:56 | trimming the key a second time changes nothing |
| PhpString.Unslash | inc/admin/class-user-list-table.php:56 | `wp_unslash` never lengthens a string and leaves a string without backslashes unchanged |
| PhpString.AddSlashes | inc/admin/class-user-list-table.php:56 | WordPress's slashing of a request value escapes `'`, `"` and `\` with a backslash and writes NUL as `\0`, so the result is between the value's length and twice that |
| PhpString.AddSlashesNulFree | inc/admin/class-user-list-table.php:56 | a slashed request value contains no NUL character |
| PhpString.UnslashAddSlashes | inc/admin/class-user-list-table.php:321 | `wp_unslash` exactly undoes WordPress's slashing of a request value, so the nonce reaches `wp_verify_nonce` as sent |
| PhpString.TrimAddSlashes | inc/admin/class-user-list-table.php:56 | on a value without NUL characters, trimming the slashed value is slashing the trimmed value |
| PhpString.TrimUnderSlashing | inc/admin/class-user-list-table.php:56 | `wp_unslash(trim(...))` of a slashed value without NUL characters is `trim` of the value as sent |
| PhpString.IsTruthy | inc/admin/class-user-list-table.php:66 | a string is truthy when it has two or more characters, falsy when empty, and a one-character string is falsy exactly when it is "0" |
| PhpString.Stripos | inc/admin/class-user-list-table.php:189 | `stripos` returns the first offset where the key occurs ignoring ASCII case, and returns false exactly when it occurs nowhere |
| PhpString.StriposIgnoresNeedleCase | inc/admin/class-user-list-table.php:189 | the search result does not depend on the case of the search key |
| PhpString.DecimalRoundTrip | inc/admin/class-user-list-table.php:166-171 | the ID value the filter searches is the decimal text of the ID, and reading that text back gives the ID |
| UserRecord.ColumnValue | inc/admin/class-user-list-table.php:207-216 | every data column, in each branch of the switch, shows the fetched row's entry under that column's key |
| UserRecord.FieldsFollowColumns | inc/admin/class-user-list-table.php:97-103 | the values the filter searches are, in order, the four data columns after the checkbox column |
| UserRecord.SortableColumnsAreDataColumns | inc/admin/class-user-list-table.php:130-134 | every sortable column is a declared data column that sorts by its own name; only ID starts descending; the checkbox and login columns are not sortable |
| UserRecord.FetchOrdering | inc/admin/class-user-list-table.php:163-164 | the query orders by the `orderby` and `order` query-string (`$_GET`) parameters when present, passed through unchecked, and by `user_registered` and `ASC` when absent |
| UserRecord.DefaultOrderingIsSortable | inc/admin/class-user-list-table.php:163-164 | with `orderby` and `order` absent, the query orders by `user_registered` ascending, a declared sortable column in its declared initial direction |
| SearchFilter.AnyValueContains | inc/admin/class-user-list-table.php:188-192 | the callback's loop returns true exactly when some value contains the key case-insensitively |
| SearchFilter.KeepRow | inc/admin/class-user-list-table.php:187-193 | the callback keeps a row exactly when one of its values (login, display name, registration date, ID) contains the key |
| SearchFilter.FilterBy | inc/admin/class-user-list-table.php:187-193 | `array_values(array_filter(...))` returns no more elements than it was given, and the callback accepts every one of them |
| SearchFilter.FilterTableData | inc/admin/class-user-list-table.php:186-197 | the filtered rows are no more than the input rows and every one of them matches the key |
| SearchFilter.FilterIsSubsequence | inc/admin/class-user-list-table.php:187-195 | the result is an order-preserving subsequence of the input; `array_values` only re-indexes |
| SearchFilter.FilterCounts | inc/admin/class-user-list-table.php:187-193 | each row occurs in the result as often as in the input if it matches, and never if it does not; nothing is duplicated or lost |
| SearchFilter.FilterKeepsAllIffAllMatch | inc/admin/class-user-list-table.php:187-193 | the filter returns its input unchanged exactly when every row matches |
| SearchFilter.FilterAppend | inc/admin/class-user-list-table.php:186-197 | filtering a concatenation is concatenating the filtered parts |
| SearchFilter.FilterIdempotent | inc/admin/class-user-list-table.php:186-197 | filtering twice by the same key is filtering once |
| SearchFilter.SearchKey | inc/admin/class-user-list-table.php:56 | the key is empty when `s` is absent and never longer than the raw parameter; a parameter without backslashes gives its trimmed text, with no trim character at either end |
| SearchFilter.SearchKeyOfSent | inc/admin/class-user-list-table.php:56 | a search sent as `x` without NUL characters, and slashed by WordPress, yields exactly `trim(x)` as the key, quotes and backslashes included |
| SearchFilter.SentTrailingNulSurvivesInKey | inc/admin/class-user-list-table.php:56 | a value sent as `x` followed by NUL, with `x` free of NULs, gives the key `x` without its leading trim characters, followed by the NUL: `trim` runs before `wp_unslash` and sees the NUL escaped |
| SearchFilter.SentLeadingNulSurvivesInKey | inc/admin/class-user-list-table.php:56 | a value sent as NUL followed by `x`, with `x` free of NULs, gives the key NUL followed by `x` without its trailing trim characters |
| SearchFilter.SearchResults | inc/admin/class-user-list-table.php:66-68 | a falsy key leaves the fetched rows untouched; a truthy key leaves an order-preserving subsequence of them in which every matching row occurs as often as it was fetched and no other row occurs |
| SearchFilter.FalsySearchKeepsFetchedRows | inc/admin/class-user-list-table.php:56-68 | a blank key, or a key that trims to "0", does not filter |
| SearchFilter.AdminSearchExample | inc/admin/class-user-list-table.php:189 | "Admin2" and "administrator" contain "admin" case-insensitively; "root" does not |
| Pagination.ArraySlice | inc/admin/class-user-list-table.php:76 | `array_slice` gives min(length, remaining) elements from the offset, and none from an offset at or past the end |
| Pagination.PageSlice | inc/admin/class-user-list-table.php:76 | a page holds the rows from offset `(page - 1) * per_page` on, in order, min(`per_page`, rows remaining) of them, and is empty when that offset is at or past the end of the data |
| Pagination.TotalPages | inc/admin/class-user-list-table.php:83 | the page count is the least number of pages of `per_page` rows that holds all the items |
| Pagination.TotalPagesZeroIffEmpty | inc/admin/class-user-list-table.php:79-83 | there are no pages exactly when there are no items |
| Pagination.PageEmptyIffPastLastPage | inc/admin/class-user-list-table.php:76-83 | a page is empty exactly when its number exceeds the page count; an out-of-range page is not an error while its offset fits in a PHP integer |
| Pagination.FlattenPagesPrefix | inc/admin/class-user-list-table.php:76 | the first k pages laid end to end are the first k·per_page rows |
| Pagination.PagesReconstructData | inc/admin/class-user-list-table.php:76-84 | pages 1 to `total_pages`, concatenated in order, reconstruct the data exactly |
| Pagination.TwelveRowsExample | inc/admin/class-user-list-table.php:76-83 | with 12 rows and 5 per page, page 2 holds rows 6 to 10 and there are 3 pages |
| TableActions.ScopesDistinct | inc/admin/class-user-list-table.php:320-354 | the view, add and bulk nonce scopes are pairwise different |
| TableActions.Token | inc/admin/class-user-list-table.php:321 | the nonce checked is `_wpnonce` unslashed, never longer than what was sent; an absent `_wpnonce` is checked as the empty string |
| TableActions.TokenOfSent | inc/admin/class-user-list-table.php:333 | a nonce the browser sent reaches verification unchanged, whatever WordPress's request slashing added |
| Request.AbsInt | inc/admin/class-user-list-table.php:327 | `absint(user_id)` is the magnitude of the integer read from `user_id`, and 0 when it is absent |
| TableActions.NonceFailure | inc/admin/class-user-list-table.php:422-430 | a nonce failure is a `wp_die` asked for response 403 and passed the unslashed `page` parameter as its `back_link` argument |
| TableActions.NonceFailureLinksBack | inc/admin/class-user-list-table.php:422-430 | the nonce failure reached from a followed row-action link passes as `back_link` exactly the page the link was created on |
| TableActions.IsBulkTrigger | inc/admin/class-user-list-table.php:345 | a bulk download is requested when `action` or `action2` is `bulk-download` |
| TableActions.FollowedRowLinkIsNoBulkTrigger | inc/admin/class-user-list-table.php:255-270 | a followed view or add link never requests a bulk download |
| TableActions.Guarded | inc/admin/class-user-list-table.php:320-329 | a guarded action runs its handler exactly when the token verifies for the handler's own scope, and dies with 403 otherwise |
| TableActions.HandleTableActions | inc/admin/class-user-list-table.php:308-363 | a handler runs only when its own scope verifies; a die has status 403; rendering continues exactly when there is no row action and no bulk trigger |
| TableActions.RowActionsTakePrecedence | inc/admin/class-user-list-table.php:318-342 | a view or add request dies or runs its own handler on `absint(user_id)`, whatever `action` and `action2` say about a bulk download |
| TableActions.BulkDownloadDispatch | inc/admin/class-user-list-table.php:344-361 | with no row action current, `bulk-download` in `action` or `action2` hands the `users` list to the bulk handler when the `bulk-users` nonce verifies, and dies with 403 otherwise |
| TableActions.RowActionTokenRejectedForBulk | inc/admin/class-user-list-table.php:354-356 | a token valid only for a row-action scope is rejected for a bulk download |
| TableActions.RowActionLinks | inc/admin/class-user-list-table.php:255-272 | each row gets a view link and an add link, both carrying the row's ID and the same page |
| TableActions.FollowLinkRoundTrip | inc/admin/class-user-list-table.php:255-270 | a followed row-action link reaches the dispatcher with its own action, nonce and user ID |
| TableActions.ViewLinkDispatchesToViewHandler | inc/admin/class-user-list-table.php:255-261 | following a view link runs the view handler for that row's ID, because the link's nonce is created for the scope the dispatcher verifies |
| TableActions.AddLinkDispatchesToAddHandler | inc/admin/class-user-list-table.php:265-271 | following an add link runs the add handler for that row's ID, because the link's nonce is created for the scope the dispatcher verifies |
| TableActions.ViewLinkNonceRejectedForBulk | inc/admin/class-user-list-table.php:354 | a view link's nonce replayed on a bulk download is rejected when the nonce service keeps the scopes apart |
| ListTable.PrepareItems | inc/admin/class-user-list-table.php:53-85 | the request halts exactly when action handling does not continue; otherwise the page has at most `per_page` items and `total_items` counts all search results, not the page |
| ListTable.ListedIsPageOfResults | inc/admin/class-user-list-table.php:66-84 | with no action to handle, the table lists page `page` of the search results, with `total_items` counting all of them and `total_pages` their page count |
| ListTable.ListedPageCount | inc/admin/class-user-list-table.php:79-84 | `total_pages` is the ceiling of the number of search results over `per_page`, and is 0 exactly when the search result is empty |
| ListTable.ListedItemsEmptyIffPastLastPage | inc/admin/class-user-list-table.php:76-84 | the listed items are empty exactly when the page number exceeds `total_pages` |
| ListTable.ListedItemsComeFromSearchResults | inc/admin/class-user-list-table.php:64-76 | item k of page p is search result (p - 1)·per_page + k; with a falsy key the page comes straight from the fetched rows |
| ListTable.BrowsingAllPagesShowsAllResults | inc/admin/class-user-list-table.php:66-84 | the items of pages 1 to `total_pages`, concatenated, are exactly the search results in order |
| ListTable.HaltedIgnoresTableData | inc/admin/class-user-list-table.php:60-64 | a request that ends in action handling does not depend on the fetched rows or on the page asked for |
| ListTable.ViewLinkNeverLists | inc/admin/class-user-list-table.php:61 | a followed view link never lists the table, whatever the nonce service says; when the service accepts its own tokens the request ends in the view handler for the link's row |

## Left out

- `fetch_table_data` is not modelled: it assembles SQL and runs it against the database. Its output is an input sequence of rows, already sorted. Only its defaults are kept, in `UserRecord.FetchOrdering`. `esc_sql` and a failing query are not modelled.
- The base-class services `current_action`, `get_pagenum`, `get_items_per_page`, `get_column_info`, `row_actions` and `set_pagination_args` come from the list-table library, which is not part of this model. `current_action()` is a request field. The page number and rows per page are inputs of at least 1. The pagination arguments are returned as a record.
- `wp_create_nonce` and `wp_verify_nonce` are framework cryptography. They are the parameters `create` and `verify`. A missing `_wpnonce` reaches `verify` as the empty string, like PHP's string cast of null.
- `wp_die` and `exit` are outcome values, not process termination.
- The handlers `page_view_usermeta`, `page_add_usermeta` and `page_bulk_download` become the `Handler` values they would run with. The view partials they include, with their `current_user_can` checks, are HTML rendering.
- HTML rendering is not modelled: `column_cb`, the markup of `column_user_login`, `no_items` and the view partials. The value `column_default` returns is `UserRecord.ColumnValue`; how the base class prints it is not modelled. The bulk-action menu is only a label.
- TableActions.FollowLink: the round trip holds only for URL-safe parameter values. The link carries the page slug, the action names, the hex nonce and the numeric user ID. `add_query_arg` does not URL-encode and `esc_url` strips characters such as `\` and `"`, so a `page` value with such characters would not come back unchanged. Neither function is modelled.
- TableActions.NonceFailure: `backToPage` is the argument passed to `wp_die` as `back_link`, not the target of the link shown. `wp_die` treats that argument as a flag and renders a history-back link. The 403 status is sent only if headers have not yet gone out; the table is prepared after the admin header, so the browser may see another status. HTTP headers are not modelled.
- Pagination.PageSlice: assumes the offset `(page - 1) * per_page` fits in a PHP integer, that is page <= PHP_INT_MAX / per_page + 1 with PHP_INT_MAX = 9223372036854775807. Beyond that PHP computes a float offset and PHP 8's `array_slice` throws a TypeError; the model returns an empty page instead.
- Pagination.PageEmptyIffPastLastPage: "not an error" holds only while the offset fits in a PHP integer, for the reason given for `Pagination.PageSlice`.
- Array-valued request parameters (`s[]=x` and the like) are not modelled: every parameter is a string or absent, and `users` is a list of strings. For an array-valued `s` the source fails in `trim` with a TypeError under PHP 8.
- Request.AbsInt takes the integer PHP's cast reads from `user_id`. It does not model the string-to-integer conversion itself: leading digits, float-form strings, 64-bit saturation. It also does not model `abs(PHP_INT_MIN)` becoming a float.
- SearchFilter.SearchKeyOfSent: is stated only for sent values without NUL characters, which is stronger than needed. A NUL that lies in the leading or trailing run of trim characters stays in the key; `SearchFilter.SentLeadingNulSurvivesInKey` and `SearchFilter.SentTrailingNulSurvivesInKey` prove this for a NUL at the very start or end. Other NUL placements, where the key should still be `trim` of the sent value, are not proved.
- UserRecord.FetchOrdering: reads `orderby` and `order` from the query string, as the users query does. A POST body carrying them is ignored by the code; the `Request` record holds only the query-string values for these two fields. The table's own form is submitted by GET.
- Pagination.TotalPages uses integer ceiling division. PHP's float division and `ceil` agree with it for totals below 2^53. Larger totals are not modelled.
- PhpString.Stripos works on characters, not bytes. For valid UTF-8, a byte match and a character match are the same, and ASCII folding touches only ASCII. The locale-dependent folding of PHP versions before 8.2 is not modelled. An empty key is found at offset 0, as in PHP 8; the search gate never passes an empty key anyway.
- The plugin's glue files are not part of this model: menu registration, asset loading, the screen option default of 5, text-domain loading and the deactivator stub.

=== FILE: list_table.dfy ===
/**
 * `prepare_items` of the user list table, end to end: actions are handled
 * first (and may end the request), then the fetched rows are searched and
 * the requested page is cut out of the result.
 *
 * The fetched rows, the page number and the rows per page are inputs: the
 * database query and the list-table base class supply them.
 */
module ListTable {
  import opened Request
  import opened UserRecord
  import opened PhpString
  import opened SearchFilter
  import opened Pagination
  import opened TableActions

  /** The pagination arguments handed to the base class. */
  datatype PaginationArgs = PaginationArgs(totalItems: nat, perPage: nat, totalPages: nat)

  /** The result of preparing the table: the request ended inside the action
      handling, or the items of the current page and the pagination. */
  datatype Prepared =
    | Halted(outcome: Outcome)
    | Listed(items: seq<Row>, pagination: PaginationArgs)

  /** `prepare_items`. */
  function PrepareItems(
    verify: (string, string) -> bool, req: Request, fetched: seq<Row>, page: nat, perPage: nat): (p: Prepared)
    requires page >= 1 && perPage >= 1
    ensures p.Halted? <==> !HandleTableActions(verify, req).ContinueRendering?
    ensures p.Halted? ==> p.outcome == HandleTableActions(verify, req)
    ensures p.Listed? ==> |p.items| <= perPage
    ensures p.Listed? ==> p.pagination.perPage == perPage
    ensures p.Listed? ==> p.pagination.totalItems == |SearchResults(req, fetched)|
  {
    var outcome := HandleTableActions(verify, req);
    if !outcome.ContinueRendering? then Halted(outcome)
    else
      var data := SearchResults(req, fetched);
      var total := |data|;
      Listed(PageSlice(data, page, perPage), PaginationArgs(total, perPage, TotalPages(total, perPage)))
  }

  /** With no action to handle, the table lists page `page` of the search
      results, with the count of all of them and the page count. */
  lemma ListedIsPageOfResults(
    verify: (string, string) -> bool, req: Request, fetched: seq<Row>, page: nat, perPage: nat)
    requires page >= 1 && perPage >= 1
    requires !IsRowAction(req) && !IsBulkTrigger(req)
    ensures var data := SearchResults(req, fetched);
            PrepareItems(verify, req, fetched, page, perPage)
              == Listed(PageSlice(data, page, perPage), PaginationArgs(|data|, perPage, TotalPages(|data|, perPage)))
  {
  }

  /** `ListedIsPageOfResults` for every page at once. */
  lemma ListedPagesOfResults(
    verify: (string, string) -> bool, req: Request, fetched: seq<Row>, perPage: nat)
    requires perPage >= 1
    requires !IsRowAction(req) && !IsBulkTrigger(req)
    ensures forall page: nat :: page >= 1 ==>
              PrepareItems(verify, req, fetched, page, perPage).items == PageSlice(SearchResults(req, fetched), page, perPage)
    ensures PrepareItems(verify, req, fetched, 1, perPage).pagination.totalPages
              == TotalPages(|SearchResults(req, fetched)|, perPage)
  {
    forall page: nat | page >= 1
      ensures PrepareItems(verify, req, fetched, page, perPage).items == PageSlice(SearchResults(req, fetched), page, perPage)
    {
      ListedIsPageOfResults(verify, req, fetched, page, perPage);
    }
    ListedIsPageOfResults(verify, req, fetched, 1, perPage);
  }

  /** When the table is listed, the page count is the ceiling (in the sense
      of `TotalPages`) of the number of search results, not of the page,
      over the rows per page, and an empty result has no pages. */
  lemma ListedPageCount(
    verify: (string, string) -> bool, req: Request, fetched: seq<Row>, page: nat, perPage: nat)
    requires page >= 1 && perPage >= 1
    requires !IsRowAction(req) && !IsBulkTrigger(req)
    ensures var args := PrepareItems(verify, req, fetched, page, perPage).pagination;
            args.totalPages == TotalPages(|SearchResults(req, fetched)|, perPage)
    ensures (PrepareItems(verify, req, fetched, page, perPage).pagination.totalPages == 0) <==>
            (SearchResults(req, fetched) == [])
  {
    var data := SearchResults(req, fetched);
    assert PrepareItems(verify, req, fetched, page, perPage).pagination
        == PaginationArgs(|data|, perPage, TotalPages(|data|, perPage));
    TotalPagesZeroIffEmpty(|data|, perPage);
  }

  /** The listed items are empty exactly when the page lies past the last
      one; such a page is not an error, as long as its offset fits in a PHP
      integer. */
  lemma ListedItemsEmptyIffPastLastPage(
    verify: (string, string) -> bool, req: Request, fetched: seq<Row>, page: nat, perPage: nat)
    requires page >= 1 && perPage >= 1
    requires !IsRowAction(req) && !IsBulkTrigger(req)
    ensures var p := PrepareItems(verify, req, fetched, page, perPage);
            p.items == [] <==> page > p.pagination.totalPages
  {
    var data := SearchResults(req, fetched);
    var p := PrepareItems(verify, req, fetched, page, perPage);
    assert p.items == PageSlice(data, page, perPage);
    assert p.pagination.totalPages == TotalPages(|data|, perPage);
    PageEmptyIffPastLastPage(data, page, perPage);
  }

  /** The items of the listed page are the search results from offset
      `(page - 1) * perPage` on; with a falsy search key they come straight
      from the fetched rows. */
  lemma ListedItemsComeFromSearchResults(
    verify: (string, string) -> bool, req: Request, fetched: seq<Row>, page: nat, perPage: nat)
    requires page >= 1 && perPage >= 1
    requires !IsRowAction(req) && !IsBulkTrigger(req)
    ensures var items := PrepareItems(verify, req, fetched, page, perPage).items;
            forall k :: 0 <= k < |items| ==>
              && (page - 1) * perPage + k < |SearchResults(req, fetched)|
              && items[k] == SearchResults(req, fetched)[(page - 1) * perPage + k]
    ensures !IsTruthy(SearchKey(req)) ==>
              PrepareItems(verify, req, fetched, page, perPage).items == PageSlice(fetched, page, perPage)
  {
    var data := SearchResults(req, fetched);
    ListedIsPageOfResults(verify, req, fetched, page, perPage);
    assert PageOffset(page, perPage) == (page - 1) * perPage;
    if !IsTruthy(SearchKey(req)) {
      assert data == fetched;
    }
  }

  /** Browsing pages `1 .. totalPages` of a listed table shows every search
      result exactly once and in order: their items, concatenated, are the
      search results. */
  lemma {:induction false} BrowsingAllPagesShowsAllResults(
    verify: (string, string) -> bool, req: Request, fetched: seq<Row>, perPage: nat)
    requires perPage >= 1
    requires !IsRowAction(req) && !IsBulkTrigger(req)
    ensures var n := PrepareItems(verify, req, fetched, 1, perPage).pagination.totalPages;
            Flatten(seq(n, i requires 0 <= i < n => PrepareItems(verify, req, fetched, i + 1, perPage).items))
              == SearchResults(req, fetched)
  {
    var data := SearchResults(req, fetched);
    var n := TotalPages(|data|, perPage);
    ListedPagesOfResults(verify, req, fetched, perPage);
    var shown := seq(n, i requires 0 <= i < n => PrepareItems(verify, req, fetched, i + 1, perPage).items);
    FlattenOfAllPages(data, perPage, shown);
  }

  /** A request that ends in the action handling never reaches the search
      or the pagination: the outcome does not depend on the fetched rows or
      on the page asked for. */
  lemma HaltedIgnoresTableData(
    verify: (string, string) -> bool, req: Request,
    fetched1: seq<Row>, page1: nat, fetched2: seq<Row>, page2: nat, perPage: nat)
    requires page1 >= 1 && page2 >= 1 && perPage >= 1
    requires PrepareItems(verify, req, fetched1, page1, perPage).Halted?
    ensures PrepareItems(verify, req, fetched1, page1, perPage) == PrepareItems(verify, req, fetched2, page2, perPage)
  {
  }

  /** A followed view link never lists the table: the request ends in the
      action handling whatever the nonce service says, and it runs the view
      handler for the row when the service accepts its own tokens. */
  lemma ViewLinkNeverLists(
    row: Row, req: Request, create: string -> string, verify: (string, string) -> bool,
    fetched: seq<Row>, page: nat, perPage: nat)
    requires page >= 1 && perPage >= 1
    ensures PrepareItems(verify, FollowLink(RowActionLinks(row, req, create)[0]), fetched, page, perPage).Halted?
    ensures verify(create(ViewNonceScope), ViewNonceScope) ==>
              PrepareItems(verify, FollowLink(RowActionLinks(row, req, create)[0]), fetched, page, perPage)
                == Halted(HandledThenExit(ViewMeta(row.id)))
  {
    FollowLinkRoundTrip(RowActionLinks(row, req, create)[0]);
    if verify(create(ViewNonceScope), ViewNonceScope) {
      ViewLinkDispatchesToViewHandler(row, req, create, verify);
    }
  }
}

=== FILE: pagination.dfy ===
/**
 * The pagination stage of the user list table: the page slice handed to the
 * table (`array_slice` at offset `(page - 1) * per_page`) and the page count
 * (`ceil(total / per_page)`), with the facts that tie them together.
 */
module Pagination {

  function Min(a: int, b: int): int {
    if a <= b then a else b
  }

  /** PHP `array_slice($a, $offset, $length)` for a non-negative offset and
      length: at most `length` elements starting at `offset`, and none when
      the offset is at or past the end. */
  function ArraySlice<T>(a: seq<T>, offset: nat, length: nat): (r: seq<T>)
    ensures offset >= |a| ==> r == []
    ensures offset < |a| ==> |r| == Min(length, |a| - offset)
    ensures r == [] || offset + |r| <= |a|
    ensures forall k :: 0 <= k < |r| ==> r[k] == a[offset + k]
  {
    if offset >= |a| then [] else a[offset..Min(offset + length, |a|)]
  }

  /** The offset of the first row of page `page` (counted from 1). */
  function PageOffset(page: nat, perPage: nat): nat
    requires page >= 1
  {
    (page - 1) * perPage
  }

  /** The rows shown on page `page` (counted from 1) at `perPage` rows per
      page. */
  function PageSlice<T>(data: seq<T>, page: nat, perPage: nat): (r: seq<T>)
    requires page >= 1 && perPage >= 1
    ensures |r| <= perPage
    ensures PageOffset(page, perPage) >= |data| ==> r == []
    ensures PageOffset(page, perPage) < |data| ==> |r| == Min(perPage, |data| - PageOffset(page, perPage))
    ensures r == [] || PageOffset(page, perPage) + |r| <= |data|
    ensures forall k :: 0 <= k < |r| ==> r[k] == data[PageOffset(page, perPage) + k]
  {
    ArraySlice(data, PageOffset(page, perPage), perPage)
  }

  /** `ceil($total / $per_page)`, in integer arithmetic. */
  function TotalPages(total: nat, perPage: nat): (r: nat)
    requires perPage >= 1
    ensures total <= r * perPage
    ensures r == 0 || (r - 1) * perPage < total
  {
    var q := (total + perPage - 1) / perPage;
    assert q * perPage + (total + perPage - 1) % perPage == total + perPage - 1;
    assert (q - 1) * perPage == q * perPage - perPage;
    q
  }

  /** An empty result has no pages; a non-empty one has at least one. */
  lemma TotalPagesZeroIffEmpty(total: nat, perPage: nat)
    requires perPage >= 1
    ensures TotalPages(total, perPage) == 0 <==> total == 0
  {
  }

  lemma MulMonotonic(a: nat, b: nat, n: nat)
    requires a <= b
    ensures a * n <= b * n
  {
  }

  /** A page is empty exactly when it lies past the last page; an
      out-of-range page is empty rather than an error. */
  lemma PageEmptyIffPastLastPage<T>(data: seq<T>, page: nat, perPage: nat)
    requires page >= 1 && perPage >= 1
    ensures PageSlice(data, page, perPage) == [] <==> page > TotalPages(|data|, perPage)
  {
    var t := TotalPages(|data|, perPage);
    assert PageOffset(page, perPage) == (page - 1) * perPage;
    if page > t {
      MulMonotonic(t, page - 1, perPage);
    } else {
      MulMonotonic(page - 1, t - 1, perPage);
    }
  }

  /** The pages `1 .. count`, in order. */
  function Pages<T>(data: seq<T>, perPage: nat, count: nat): (ps: seq<seq<T>>)
    requires perPage >= 1
    ensures |ps| == count
  {
    seq(count, i requires 0 <= i => PageSlice(data, i + 1, perPage))
  }

  /** Concatenation of a sequence of pages. */
  function Flatten<T>(ps: seq<seq<T>>): seq<T> {
    if ps == [] then [] else Flatten(ps[..|ps| - 1]) + ps[|ps| - 1]
  }

  /** Page `page` is the slice of the data between the page's first offset
      and the next page's, both capped at the end of the data. */
  lemma PageSliceIsSlice<T>(data: seq<T>, page: nat, perPage: nat)
    requires page >= 1 && perPage >= 1
    ensures var off := PageOffset(page, perPage);
            PageSlice(data, page, perPage) == data[Min(off, |data|)..Min(off + perPage, |data|)]
  {
  }

  /** The first `count - 1` pages' rows followed by page `count` are the
      first `count` pages' rows. */
  lemma PrefixThenPage<T>(data: seq<T>, perPage: nat, count: nat)
    requires perPage >= 1 && count >= 1
    ensures data[..Min((count - 1) * perPage, |data|)] + PageSlice(data, count, perPage)
              == data[..Min(count * perPage, |data|)]
  {
    var off := PageOffset(count, perPage);
    assert off == (count - 1) * perPage;
    assert off + perPage == count * perPage;
    var lo := Min(off, |data|);
    var hi := Min(off + perPage, |data|);
    PageSliceIsSlice(data, count, perPage);
    assert data[..lo] + data[lo..hi] == data[..hi];
  }

  /** The first `count` pages, laid end to end, are the first
      `count * perPage` rows (or all of them, if there are fewer). */
  lemma {:induction false} FlattenPagesPrefix<T>(data: seq<T>, perPage: nat, count: nat)
    requires perPage >= 1
    ensures Flatten(Pages(data, perPage, count)) == data[..Min(count * perPage, |data|)]
  {
    if count > 0 {
      var ps := Pages(data, perPage, count);
      assert ps[..count - 1] == Pages(data, perPage, count - 1);
      FlattenPagesPrefix(data, perPage, count - 1);
      assert ps[count - 1] == PageSlice(data, count, perPage);
      PrefixThenPage(data, perPage, count);
    }
  }

  /** The pages `1 .. ceil(|data| / perPage)`, laid end to end, reconstruct
      the data exactly. */
  lemma PagesReconstructData<T>(data: seq<T>, perPage: nat)
    requires perPage >= 1
    ensures Flatten(Pages(data, perPage, TotalPages(|data|, perPage))) == data
  {
    FlattenPagesPrefix(data, perPage, TotalPages(|data|, perPage));
  }

  /** Any sequence holding pages `1 .. ceil(|data| / perPage)` in order
      concatenates to the data. */
  lemma FlattenOfAllPages<T>(data: seq<T>, perPage: nat, shown: seq<seq<T>>)
    requires perPage >= 1
    requires |shown| == TotalPages(|data|, perPage)
    requires forall i :: 0 <= i < |shown| ==> shown[i] == PageSlice(data, i + 1, perPage)
    ensures Flatten(shown) == data
  {
    assert shown == Pages(data, perPage, |shown|);
    PagesReconstructData(data, perPage);
  }

  /** Twelve rows at five per page: page 2 holds rows 6 to 10, and there are
      three pages. */
  lemma TwelveRowsExample<T>(data: seq<T>)
    requires |data| == 12
    ensures PageSlice(data, 2, 5) == data[5..10]
    ensures TotalPages(|data|, 5) == 3
  {
  }
}

=== FILE: php_string.dfy ===
/**
 * Models of the PHP string built-ins the user list table relies on:
 * `trim`, `stripslashes` (behind WordPress's `wp_unslash`), `addslashes`
 * (behind the slashing WordPress applies to request parameters),
 * `stripos`, PHP's truthiness of strings, and the decimal rendering of an
 * unsigned integer column as the database returns it.
 *
 * PHP strings are byte strings; here they are sequences of characters.
 * Case folding is ASCII only, as in `stripos`.
 */
module PhpString {

  // ---------------------------------------------------------------------
  // trim
  // ---------------------------------------------------------------------

  /** The characters PHP's `trim` strips by default: space, tab, line feed,
      carriage return, NUL and vertical tab. */
  predicate IsTrimChar(c: char) {
    c == ' ' || c == '\t' || c == '\n' || c == '\r' || c == '\0' || c == '\U{000B}'
  }

  /** `s` without its longest prefix of trim characters. */
  function TrimStart(s: string): (r: string)
    ensures |r| <= |s| && r == s[|s| - |r|..]
    ensures r == [] || !IsTrimChar(r[0])
    ensures forall k :: 0 <= k < |s| - |r| ==> IsTrimChar(s[k])
  {
    if |s| > 0 && IsTrimChar(s[0]) then TrimStart(s[1..]) else s
  }

  /** `s` without its longest suffix of trim characters. */
  function TrimEnd(s: string): (r: string)
    ensures |r| <= |s| && r == s[..|r|]
    ensures r == [] || !IsTrimChar(r[|r| - 1])
    ensures forall k :: |r| <= k < |s| ==> IsTrimChar(s[k])
  {
    if |s| > 0 && IsTrimChar(s[|s| - 1]) then TrimEnd(s[..|s| - 1]) else s
  }

  /** PHP `trim($s)`: strips trim characters from both ends. The result is
      the slice of `s` that starts after the leading run of trim characters
      (`|s| - |TrimStart(s)|` of them); everything before and after the
      slice is a trim character, and the slice neither starts nor ends with
      one, so nothing else is removed. */
  function Trim(s: string): (r: string)
    ensures |r| <= |s|
    ensures var i := |s| - |TrimStart(s)|; i + |r| <= |s| && r == s[i..i + |r|]
    ensures forall k :: 0 <= k < |s| - |TrimStart(s)| ==> IsTrimChar(s[k])
    ensures forall k :: |s| - |TrimStart(s)| + |r| <= k < |s| ==> IsTrimChar(s[k])
    ensures r == [] || (!IsTrimChar(r[0]) && !IsTrimChar(r[|r| - 1]))
  {
    var t := TrimStart(s);
    var r := TrimEnd(t);
    TrimIsSlice(s, t, r);
    r
  }

  /** Stripping the end after the start leaves a slice of `s`, with only
      trim characters after it. */
  lemma TrimIsSlice(s: string, t: string, r: string)
    requires |t| <= |s| && t == s[|s| - |t|..]
    requires |r| <= |t| && r == t[..|r|]
    requires forall k :: |r| <= k < |t| ==> IsTrimChar(t[k])
    ensures var i := |s| - |t|; i + |r| <= |s| && r == s[i..i + |r|]
    ensures forall k :: |s| - |t| + |r| <= k < |s| ==> IsTrimChar(s[k])
  {
    var i := |s| - |t|;
    forall k | i + |r| <= k < |s|
      ensures IsTrimChar(s[k])
    {
      assert s[k] == t[k - i];
    }
  }

  /** Trimming twice is trimming once. */
  lemma TrimIdempotent(s: string)
    ensures Trim(Trim(s)) == Trim(s)
  {
    var t := Trim(s);
    assert TrimStart(t) == t;
  }

  // ---------------------------------------------------------------------
  // stripslashes / addslashes
  // ---------------------------------------------------------------------

  /** PHP `stripslashes`: a backslash is dropped and the character after it
      kept verbatim, except that `\0` becomes a NUL character; a lone
      trailing backslash disappears. */
  function Unslash(s: string): (r: string)
    ensures |r| <= |s|
    ensures (forall k :: 0 <= k < |s| ==> s[k] != '\\') ==> r == s
    decreases |s|
  {
    if s == [] then []
    else if s[0] != '\\' then [s[0]] + Unslash(s[1..])
    else if |s| == 1 then []
    else [if s[1] == '0' then '\0' else s[1]] + Unslash(s[2..])
  }

  /** How PHP `addslashes` writes one character. */
  function Escape(c: char): string {
    if c == '\0' then "\\0"
    else if c == '\'' || c == '"' || c == '\\' then ['\\', c]
    else [c]
  }

  /** PHP `addslashes`, which WordPress applies to every request parameter
      before plugin code reads it. */
  function AddSlashes(s: string): (r: string)
    ensures |s| <= |r| <= 2 * |s|
  {
    if s == [] then [] else Escape(s[0]) + AddSlashes(s[1..])
  }

  /** The request slashing leaves no NUL character behind: each NUL becomes
      the two characters `\0`. */
  lemma {:induction false} AddSlashesNulFree(s: string)
    ensures NulFree(AddSlashes(s))
  {
    if s != [] {
      AddSlashesNulFree(s[1..]);
      var e, rest := Escape(s[0]), AddSlashes(s[1..]);
      assert forall k :: 0 <= k < |e| ==> e[k] != '\0';
      assert forall k :: |e| <= k < |e + rest| ==> (e + rest)[k] == rest[k - |e|];
    }
  }

  lemma SeqAssoc(x: string, y: string, z: string)
    ensures x + (y + z) == (x + y) + z
  {
  }

  /** The request slashing of a concatenation is the concatenation of the
      slashed parts. */
  lemma {:induction false} AddSlashesAppend(a: string, b: string)
    ensures AddSlashes(a + b) == AddSlashes(a) + AddSlashes(b)
  {
    if a == [] {
      assert a + b == b;
    } else {
      var e, t := Escape(a[0]), a[1..];
      assert (a + b)[0] == a[0] && (a + b)[1..] == t + b;
      assert AddSlashes(a + b) == e + AddSlashes(t + b);
      assert AddSlashes(a) == e + AddSlashes(t);
      AddSlashesAppend(t, b);
      SeqAssoc(e, AddSlashes(t), AddSlashes(b));
    }
  }

  /** The characters `addslashes` escapes. */
  predicate IsSlashed(c: char) {
    c == '\0' || c == '\'' || c == '"' || c == '\\'
  }

  /** A string without quotes, backslashes or NULs is left alone by the
      request slashing. */
  lemma {:induction false} AddSlashesPlain(s: string)
    requires forall k :: 0 <= k < |s| ==> !IsSlashed(s[k])
    ensures AddSlashes(s) == s
  {
    if s != [] {
      AddSlashesPlain(s[1..]);
      assert s == [s[0]] + s[1..];
    }
  }

  /** `wp_unslash` undoes WordPress's request slashing exactly. */
  lemma {:induction false} UnslashAddSlashes(s: string)
    ensures Unslash(AddSlashes(s)) == s
  {
    if s != [] {
      var c, rest := s[0], s[1..];
      UnslashAddSlashes(rest);
      var e := Escape(c) + AddSlashes(rest);
      assert AddSlashes(s) == e;
      if c == '\0' || c == '\'' || c == '"' || c == '\\' {
        assert e[0] == '\\' && e[2..] == AddSlashes(rest);
      } else {
        assert e[1..] == AddSlashes(rest);
      }
      assert s == [c] + rest;
    }
  }

  /** `s` contains no NUL character. */
  predicate NulFree(s: string) {
    forall k :: 0 <= k < |s| ==> s[k] != '\0'
  }

  /** On text without NUL, the request slashing leaves the leading trim
      characters alone and never starts an escape with one, so stripping
      them commutes with it. */
  lemma {:induction false} TrimStartAddSlashes(x: string)
    requires NulFree(x)
    ensures TrimStart(AddSlashes(x)) == AddSlashes(TrimStart(x))
  {
    if x != [] {
      var e := Escape(x[0]);
      assert AddSlashes(x) == e + AddSlashes(x[1..]);
      if IsTrimChar(x[0]) {
        assert e == [x[0]];
        assert (e + AddSlashes(x[1..]))[1..] == AddSlashes(x[1..]);
        TrimStartAddSlashes(x[1..]);
      } else {
        assert !IsTrimChar((e + AddSlashes(x[1..]))[0]);
      }
    }
  }

  /** On text without NUL, stripping the trailing trim characters commutes
      with the request slashing: an escape ends in the escaped character,
      which is never a trim character. */
  lemma {:induction false} TrimEndAddSlashes(x: string)
    requires NulFree(x)
    ensures TrimEnd(AddSlashes(x)) == AddSlashes(TrimEnd(x))
    decreases |x|
  {
    if x != [] {
      var init, c := x[..|x| - 1], x[|x| - 1];
      assert x == init + [c];
      AddSlashesAppend(init, [c]);
      assert AddSlashes([c]) == Escape(c);
      var a := AddSlashes(init);
      if IsTrimChar(c) {
        assert Escape(c) == [c];
        assert (a + [c])[..|a|] == a;
        TrimEndAddSlashes(init);
      } else {
        assert (a + Escape(c))[|a + Escape(c)| - 1] == c;
      }
    }
  }

  /** A suffix of a NUL-free string is NUL-free. */
  lemma NulFreeSuffix(x: string, t: string)
    requires NulFree(x) && |t| <= |x| && t == x[|x| - |t|..]
    ensures NulFree(t)
  {
    forall k | 0 <= k < |t|
      ensures t[k] != '\0'
    {
      assert t[k] == x[|x| - |t| + k];
    }
  }

  /** On text without NUL, `trim` commutes with the request slashing. */
  lemma TrimAddSlashes(x: string)
    requires NulFree(x)
    ensures Trim(AddSlashes(x)) == AddSlashes(Trim(x))
  {
    var t := TrimStart(x);
    TrimStartAddSlashes(x);
    NulFreeSuffix(x, t);
    TrimEndAddSlashes(t);
  }

  /** A NUL-free value sent by the browser, slashed by WordPress, trimmed
      and unslashed as the search key is, comes out as the trimmed value. */
  lemma TrimUnderSlashing(x: string)
    requires NulFree(x)
    ensures Unslash(Trim(AddSlashes(x))) == Trim(x)
  {
    TrimAddSlashes(x);
    UnslashAddSlashes(Trim(x));
  }

  /** Stripping leading trim characters stops at a non-trim character, so
      whatever follows it is kept as it is. */
  lemma {:induction false} TrimStartAppend(a: string, b: string)
    requires b != [] && !IsTrimChar(b[0])
    ensures TrimStart(a + b) == TrimStart(a) + b
  {
    if a == [] {
      assert a + b == b;
    } else {
      assert (a + b)[0] == a[0] && (a + b)[1..] == a[1..] + b;
      TrimStartAppend(a[1..], b);
    }
  }

  /** Stripping trailing trim characters stops at a non-trim character, so
      whatever precedes it is kept as it is. */
  lemma {:induction false} TrimEndPrepend(b: string, a: string)
    requires b != [] && !IsTrimChar(b[|b| - 1])
    ensures TrimEnd(b + a) == b + TrimEnd(a)
    decreases |a|
  {
    if a == [] {
      assert b + a == b;
    } else {
      var init := a[..|a| - 1];
      assert (b + a)[|b + a| - 1] == a[|a| - 1] && (b + a)[..|b + a| - 1] == b + init;
      TrimEndPrepend(b, init);
    }
  }

  /** A NUL at the end of a value is slashed to `\0`. */
  lemma SlashedNulSuffix(x: string)
    ensures AddSlashes(x + "\0") == AddSlashes(x) + "\\0"
  {
    AddSlashesAppend(x, "\0");
    assert AddSlashes("\0") == "\\0";
  }

  /** A string whose last character is not a trim character has nothing
      to strip at the end. */
  lemma TrimEndKeepsNonTrimLast(m: string)
    requires m != [] && !IsTrimChar(m[|m| - 1])
    ensures TrimEnd(m) == m
  {
  }

  /** Stripping the leading trim characters of a slashed value ending in
      NUL stops before the escaped NUL. */
  lemma TrimStartSlashedTrailingNul(x: string)
    requires NulFree(x)
    ensures TrimStart(AddSlashes(x + "\0")) == AddSlashes(TrimStart(x)) + "\\0"
  {
    SlashedNulSuffix(x);
    TrimStartAddSlashes(x);
    TrimStartAppend(AddSlashes(x), "\\0");
  }

  /** `trim` of a slashed value ending in NUL removes only the leading trim
      characters: the escaped NUL ends in `0`, which `trim` keeps. */
  lemma TrimSlashedTrailingNul(x: string)
    requires NulFree(x)
    ensures Trim(AddSlashes(x + "\0")) == AddSlashes(TrimStart(x) + "\0")
  {
    var t := TrimStart(x);
    TrimStartSlashedTrailingNul(x);
    var m := AddSlashes(t) + "\\0";
    TrimEndKeepsNonTrimLast(m);
    SlashedNulSuffix(t);
  }

  /** A NUL sent at the end of a value is slashed to `\0`, which `trim`
      does not see: unslashing the trimmed value brings the NUL back, and
      only the leading trim characters are gone. */
  lemma TrailingNulUnderSlashing(x: string)
    requires NulFree(x)
    ensures Unslash(Trim(AddSlashes(x + "\0"))) == TrimStart(x) + "\0"
  {
    TrimSlashedTrailingNul(x);
    UnslashAddSlashes(TrimStart(x) + "\0");
  }

  /** A string whose first character is not a trim character has nothing
      to strip at the start. */
  lemma TrimStartKeepsNonTrimFirst(m: string)
    requires m != [] && !IsTrimChar(m[0])
    ensures TrimStart(m) == m
  {
  }

  /** A NUL at the start of a value is slashed to `\0`. */
  lemma SlashedNulPrefix(x: string)
    ensures AddSlashes("\0" + x) == "\\0" + AddSlashes(x)
  {
    AddSlashesAppend("\0", x);
    assert AddSlashes("\0") == "\\0";
  }

  /** `trim` of a slashed value starting with NUL removes only the trailing
      trim characters: the escaped NUL starts with a backslash, which `trim`
      keeps. */
  lemma TrimSlashedLeadingNul(x: string)
    requires NulFree(x)
    ensures Trim(AddSlashes("\0" + x)) == AddSlashes("\0" + TrimEnd(x))
  {
    var a := "\\0" + AddSlashes(x);
    SlashedNulPrefix(x);
    TrimStartKeepsNonTrimFirst(a);
    TrimEndPrepend("\\0", AddSlashes(x));
    TrimEndAddSlashes(x);
    SlashedNulPrefix(TrimEnd(x));
  }

  /** A NUL sent at the start of a value is slashed to `\0`, which `trim`
      does not see: unslashing the trimmed value brings the NUL back, and
      only the trailing trim characters are gone. */
  lemma LeadingNulUnderSlashing(x: string)
    requires NulFree(x)
    ensures Unslash(Trim(AddSlashes("\0" + x))) == "\0" + TrimEnd(x)
  {
    TrimSlashedLeadingNul(x);
    UnslashAddSlashes("\0" + TrimEnd(x));
  }

  // ---------------------------------------------------------------------
  // Truthiness
  // ---------------------------------------------------------------------

  /** A PHP string is falsy exactly when it is empty or "0". */
  predicate IsTruthy(s: string)
    ensures IsTruthy(s) ==> |s| >= 1
    ensures |s| >= 2 ==> IsTruthy(s)
    ensures |s| == 1 ==> (IsTruthy(s) <==> s[0] != '0')
  {
    s != "" && s != "0"
  }

  // ---------------------------------------------------------------------
  // stripos
  // ---------------------------------------------------------------------

  /** ASCII lower-casing of one character. */
  function ToLower(c: char): char {
    if 'A' <= c <= 'Z' then (c as int + 32) as char else c
  }

  /** The needle `n` occurs in `h` at offset `i`, ignoring ASCII case. */
  predicate MatchesAt(h: string, n: string, i: nat) {
    i + |n| <= |h| && forall k :: 0 <= k < |n| ==> ToLower(h[i + k]) == ToLower(n[k])
  }

  /** Reference meaning of a case-insensitive substring test. */
  ghost predicate ContainsCI(h: string, n: string) {
    exists i: nat :: MatchesAt(h, n, i)
  }

  /** The result of `stripos`: an offset, or PHP's `false`. */
  datatype Position = NotFound | At(index: nat)

  /** `stripos` searching from offset `from` onwards. */
  function StriposFrom(h: string, n: string, from: nat): (r: Position)
    ensures r.At? ==> from <= r.index && MatchesAt(h, n, r.index)
    ensures r.At? ==> forall j: nat :: from <= j < r.index ==> !MatchesAt(h, n, j)
    ensures r.NotFound? ==> forall j: nat :: from <= j ==> !MatchesAt(h, n, j)
    decreases |h| - from
  {
    if from + |n| > |h| then NotFound
    else if MatchesAt(h, n, from) then At(from)
    else StriposFrom(h, n, from + 1)
  }

  /** PHP `stripos($h, $n)`: the first offset at which `n` occurs in `h`
      ignoring ASCII case, or `false` (`NotFound`) when it never does.
      An empty needle is found at offset 0, as in PHP 8. */
  function Stripos(h: string, n: string): (r: Position)
    ensures r.At? ==> MatchesAt(h, n, r.index)
    ensures r.At? ==> forall j: nat :: j < r.index ==> !MatchesAt(h, n, j)
    ensures r.NotFound? <==> !ContainsCI(h, n)
  {
    StriposFrom(h, n, 0)
  }

  /** Case-insensitive search does not depend on the case of the needle. */
  lemma StriposIgnoresNeedleCase(h: string, n: string, m: string)
    requires |n| == |m| && forall k :: 0 <= k < |n| ==> ToLower(n[k]) == ToLower(m[k])
    ensures Stripos(h, n) == Stripos(h, m)
  {
    assert forall i: nat :: MatchesAt(h, n, i) <==> MatchesAt(h, m, i);
    var a, b := Stripos(h, n), Stripos(h, m);
    if a.At? && b.At? {
      assert !(a.index < b.index) && !(b.index < a.index);
    }
  }

  // ---------------------------------------------------------------------
  // Decimal rendering
  // ---------------------------------------------------------------------

  predicate IsDigit(c: char) {
    '0' <= c <= '9'
  }

  /** The decimal text of `n` without leading zeros, as the database
      returns an unsigned integer column in a string-valued result row. */
  function DecimalString(n: nat): (r: string)
    ensures |r| >= 1
    ensures forall k :: 0 <= k < |r| ==> IsDigit(r[k])
    ensures r[0] == '0' ==> n == 0
  {
    if n < 10 then ["0123456789"[n]]
    else DecimalString(n / 10) + ["0123456789"[n % 10]]
  }

  /** Reference reading of a string of decimal digits. */
  function DigitsValue(s: string): nat
    requires forall k :: 0 <= k < |s| ==> IsDigit(s[k])
  {
    if s == [] then 0
    else
      assert IsDigit(s[|s| - 1]);
      10 * DigitsValue(s[..|s| - 1]) + (s[|s| - 1] as int - '0' as int)
  }

  /** The digit character for `d` reads back as `d`. */
  lemma DigitValue(d: nat)
    requires d < 10
    ensures "0123456789"[d] as int - '0' as int == d
  {
  }

  /** Reading the decimal text of `n` gives back `n`. */
  lemma {:induction false} DecimalRoundTrip(n: nat)
    ensures DigitsValue(DecimalString(n)) == n
  {
    var r := DecimalString(n);
    if n >= 10 {
      var prefix, d := DecimalString(n / 10), n % 10;
      assert r == prefix + ["0123456789"[d]];
      assert r[..|r| - 1] == prefix;
      DigitValue(d);
      DecimalRoundTrip(n / 10);
      assert DigitsValue(r) == 10 * DigitsValue(prefix) + d;
    } else {
      DigitValue(n);
    }
  }
}

=== FILE: request.dfy ===
/**
 * The request parameters the user list table reads, held as they appear in
 * PHP's `$_REQUEST` (already slashed by WordPress), with an explicit
 * "not set" case for `isset` checks. The sort parameters `orderby` and
 * `order` are the exception: the users query reads them from `$_GET`.
 */
module Request {

  /** A request parameter: absent (`isset` is false) or present. */
  datatype Param<+T> = Unset | Set(value: T) {
    /** The value, or `default` when the parameter is absent. */
    function GetOr(default: T): T {
      match this
      case Set(v) => v
      case Unset => default
    }
  }

  /** The parameters of one admin-page request.
      `orderby` and `order` hold the `$_GET` values; the table's own form is
      submitted by GET, so there they coincide with `$_REQUEST`.
      `currentAction` is what the list-table base class's `current_action()`
      reports (`Unset` for its `false`); `userId` is the integer PHP's cast
      reads from `user_id`. */
  datatype Request = Request(
    s: Param<string>,
    page: Param<string>,
    orderby: Param<string>,
    order: Param<string>,
    action: Param<string>,
    action2: Param<string>,
    wpnonce: Param<string>,
    userId: Param<int>,
    users: Param<seq<string>>,
    currentAction: Param<string>
  )

  /** WordPress `absint` of a request parameter; an absent one casts to 0. */
  function AbsInt(p: Param<int>): (r: nat)
    ensures p.Set? ==> r == p.value || r == -p.value
    ensures p.Unset? ==> r == 0
  {
    match p
    case Unset => 0
    case Set(v) => if v < 0 then -v else v
  }
}

=== FILE: search_filter.dfy ===
/**
 * The search stage of the user list table: the search key read from the
 * request, the gate that decides whether it filters at all, and the filter
 * that keeps the rows with a field containing the key.
 */
module SearchFilter {
  import opened PhpString
  import opened Request
  import opened UserRecord

  /** Reference meaning of "the row matches the key": some field value of
      the row, the ID and registration date included, contains the key
      ignoring ASCII case. */
  ghost predicate RowMatches(row: Row, key: string) {
    exists k :: 0 <= k < |Fields(row)| && ContainsCI(Fields(row)[k], key)
  }

  /** The loop of the filter callback: true at the first value where
      `stripos` finds the key, false (PHP's implicit null) when none does. */
  function AnyValueContains(values: seq<string>, key: string): (b: bool)
    ensures b <==> exists k :: 0 <= k < |values| && ContainsCI(values[k], key)
  {
    if values == [] then false
    else if Stripos(values[0], key).At? then true
    else AnyValueContains(values[1..], key)
  }

  /** The filter callback applied to one row. */
  function KeepRow(row: Row, key: string): (b: bool)
    ensures b <==> RowMatches(row, key)
  {
    AnyValueContains(Fields(row), key)
  }

  /** `a` is `b` with some elements removed and the rest in order. */
  predicate IsSubsequence<T(==)>(a: seq<T>, b: seq<T>)
    decreases |b|
  {
    |a| <= |b| &&
    (a == [] || (a[0] == b[0] && IsSubsequence(a[1..], b[1..])) || IsSubsequence(a, b[1..]))
  }

  /** Every sequence is a subsequence of itself. */
  lemma {:induction false} IsSubsequenceRefl<T>(s: seq<T>)
    ensures IsSubsequence(s, s)
  {
    if s != [] {
      IsSubsequenceRefl(s[1..]);
    }
  }

  // ---------------------------------------------------------------------
  // array_values(array_filter($xs, $keep)), for any callback
  // ---------------------------------------------------------------------

  /** PHP `array_values(array_filter($xs, $keep))`: the elements the
      callback accepts, re-indexed from 0 in their original order. */
  function FilterBy<T>(xs: seq<T>, keep: T -> bool): (r: seq<T>)
    ensures |r| <= |xs|
    ensures forall k :: 0 <= k < |r| ==> keep(r[k])
  {
    if xs == [] then []
    else if keep(xs[0]) then [xs[0]] + FilterBy(xs[1..], keep)
    else FilterBy(xs[1..], keep)
  }

  /** The filter keeps the order of what it keeps. */
  lemma {:induction false} FilterByIsSubsequence<T>(xs: seq<T>, keep: T -> bool)
    ensures IsSubsequence(FilterBy(xs, keep), xs)
  {
    if xs != [] {
      FilterByIsSubsequence(xs[1..], keep);
      var rest := FilterBy(xs[1..], keep);
      if keep(xs[0]) {
        assert ([xs[0]] + rest)[1..] == rest;
      }
    }
  }

  /** Each element occurs in the result as often as in the input when the
      callback accepts it, and not at all otherwise. */
  lemma {:induction false} FilterByCounts<T>(xs: seq<T>, keep: T -> bool)
    ensures forall x :: multiset(FilterBy(xs, keep))[x] == if keep(x) then multiset(xs)[x] else 0
  {
    if xs != [] {
      FilterByCounts(xs[1..], keep);
      assert xs == [xs[0]] + xs[1..];
      assert multiset(xs) == multiset{xs[0]} + multiset(xs[1..]);
    }
  }

  /** The filter distributes over concatenation. */
  lemma {:induction false} FilterByAppend<T>(a: seq<T>, b: seq<T>, keep: T -> bool)
    ensures FilterBy(a + b, keep) == FilterBy(a, keep) + FilterBy(b, keep)
  {
    if a == [] {
      assert a + b == b;
    } else {
      assert (a + b)[0] == a[0] && (a + b)[1..] == a[1..] + b;
      FilterByAppend(a[1..], b, keep);
    }
  }

  /** Filtering twice with the same callback is filtering once. */
  lemma {:induction false} FilterByIdempotent<T>(xs: seq<T>, keep: T -> bool)
    ensures FilterBy(FilterBy(xs, keep), keep) == FilterBy(xs, keep)
  {
    if xs != [] {
      FilterByIdempotent(xs[1..], keep);
    }
  }

  /** The filter returns its input unchanged exactly when the callback
      accepts every element. */
  lemma {:induction false} FilterByKeepsAllIffAllKept<T>(xs: seq<T>, keep: T -> bool)
    ensures FilterBy(xs, keep) == xs <==> forall k :: 0 <= k < |xs| ==> keep(xs[k])
  {
    if xs != [] {
      var tail := xs[1..];
      FilterByKeepsAllIffAllKept(tail, keep);
      if keep(xs[0]) {
        assert xs == [xs[0]] + tail;
        assert forall k :: 1 <= k < |xs| ==> xs[k] == tail[k - 1];
      } else {
        assert |FilterBy(tail, keep)| <= |tail| < |xs|;
      }
    }
  }

  // ---------------------------------------------------------------------
  // filter_table_data
  // ---------------------------------------------------------------------

  /** `filter_table_data`: the rows the search callback keeps, re-indexed in
      their original order. */
  function FilterTableData(rows: seq<Row>, key: string): (r: seq<Row>)
    ensures |r| <= |rows|
    ensures forall k :: 0 <= k < |r| ==> RowMatches(r[k], key)
  {
    FilterBy(rows, row => KeepRow(row, key))
  }

  /** The filter keeps the order of the rows it keeps. */
  lemma FilterIsSubsequence(rows: seq<Row>, key: string)
    ensures IsSubsequence(FilterTableData(rows, key), rows)
  {
    FilterByIsSubsequence(rows, row => KeepRow(row, key));
  }

  /** Each row occurs in the result exactly as often as in the input when it
      matches the key, and not at all otherwise: nothing is duplicated,
      invented or lost. */
  lemma FilterCounts(rows: seq<Row>, key: string)
    ensures forall x :: multiset(FilterTableData(rows, key))[x] ==
                        if RowMatches(x, key) then multiset(rows)[x] else 0
  {
    FilterByCounts(rows, row => KeepRow(row, key));
  }

  /** The filter distributes over concatenation of the fetched rows. */
  lemma FilterAppend(a: seq<Row>, b: seq<Row>, key: string)
    ensures FilterTableData(a + b, key) == FilterTableData(a, key) + FilterTableData(b, key)
  {
    FilterByAppend(a, b, row => KeepRow(row, key));
  }

  /** Filtering by the same key twice is filtering once. */
  lemma FilterIdempotent(rows: seq<Row>, key: string)
    ensures FilterTableData(FilterTableData(rows, key), key) == FilterTableData(rows, key)
  {
    FilterByIdempotent(rows, row => KeepRow(row, key));
  }

  /** A row is dropped exactly when none of its values contains the key:
      the filter returns the input unchanged precisely when every row
      matches. */
  lemma FilterKeepsAllIffAllMatch(rows: seq<Row>, key: string)
    ensures FilterTableData(rows, key) == rows <==> forall k :: 0 <= k < |rows| ==> RowMatches(rows[k], key)
  {
    FilterByKeepsAllIffAllKept(rows, row => KeepRow(row, key));
  }

  /** The search key: `wp_unslash(trim($_REQUEST['s']))`, or the empty
      string when `s` is absent. */
  function SearchKey(req: Request): (key: string)
    ensures req.s.Unset? ==> key == ""
    ensures |key| <= |req.s.GetOr("")|
    ensures req.s.Set? && (forall k :: 0 <= k < |req.s.value| ==> req.s.value[k] != '\\') ==>
              key == Trim(req.s.value) && (key == [] || (!IsTrimChar(key[0]) && !IsTrimChar(key[|key| - 1])))
  {
    match req.s
    case Unset => ""
    case Set(raw) => Unslash(Trim(raw))
  }

  /** A search the browser sent as `x` (without NUL characters), slashed by
      WordPress on the way in, yields `trim(x)` as the key: quotes and
      backslashes in the search reach the filter as typed. */
  lemma SearchKeyOfSent(req: Request, x: string)
    requires NulFree(x)
    requires req.s == Set(AddSlashes(x))
    ensures SearchKey(req) == Trim(x)
  {
    TrimUnderSlashing(x);
  }

  /** A sent value `x + NUL` (with `x` free of NULs) keeps the NUL in the key,
      although `trim` of the sent value would drop it: the NUL reaches `trim`
      escaped. Only the leading trim characters of `x` are removed. */
  lemma SentTrailingNulSurvivesInKey(req: Request, x: string)
    requires NulFree(x) && req.s == Set(AddSlashes(x + "\0"))
    ensures SearchKey(req) == TrimStart(x) + "\0"
  {
    TrailingNulUnderSlashing(x);
  }

  /** Likewise a sent value `NUL + x` keeps its leading NUL in the key, and
      only the trailing trim characters of `x` are removed. */
  lemma SentLeadingNulSurvivesInKey(req: Request, x: string)
    requires NulFree(x) && req.s == Set(AddSlashes("\0" + x))
    ensures SearchKey(req) == "\0" + TrimEnd(x)
  {
    LeadingNulUnderSlashing(x);
  }

  /** The rows that reach pagination: filtered when the search key is truthy,
      the fetched rows untouched otherwise. */
  function SearchResults(req: Request, fetched: seq<Row>): (r: seq<Row>)
    ensures IsSubsequence(r, fetched)
    ensures !IsTruthy(SearchKey(req)) ==> r == fetched
    ensures IsTruthy(SearchKey(req)) ==> forall k :: 0 <= k < |r| ==> RowMatches(r[k], SearchKey(req))
    ensures IsTruthy(SearchKey(req)) ==>
              forall x :: multiset(r)[x] == if RowMatches(x, SearchKey(req)) then multiset(fetched)[x] else 0
  {
    var key := SearchKey(req);
    if IsTruthy(key) then FilterIsSubsequence(fetched, key); FilterCounts(fetched, key); FilterTableData(fetched, key)
    else IsSubsequenceRefl(fetched); fetched
  }

  /** A blank search, or one that trims to "0", leaves the fetched rows as
      they are (an absent one does too, by `SearchResults`),
      even though filtering by "0" would drop rows without a zero. */
  lemma FalsySearchKeepsFetchedRows(req: Request, fetched: seq<Row>)
    requires req.s.Set? && Trim(req.s.value) in {"", "0"}
    ensures SearchResults(req, fetched) == fetched
  {
    assert forall k :: 0 <= k < |Trim(req.s.value)| ==> Trim(req.s.value)[k] != '\\';
  }

  /** "Admin2" and "administrator" match the key "admin"; "root" does not. */
  lemma AdminSearchExample()
    ensures Stripos("Admin2", "admin") == At(0)
    ensures Stripos("administrator", "admin") == At(0)
    ensures Stripos("root", "admin") == NotFound
  {
    assert MatchesAt("Admin2", "admin", 0);
    assert MatchesAt("administrator", "admin", 0);
  }
}

=== FILE: table_actions.dfy ===
/**
 * The action dispatcher of the user list table (`handle_table_actions`) and
 * the row-action links the login column carries. Nonce creation and
 * verification belong to WordPress and are parameters here: `create(scope)`
 * yields a token, `verify(token, scope)` accepts or rejects one.
 */
module TableActions {
  import opened Request
  import PhpString
  import UserRecord

  /** Row and bulk action names, as they appear in the `action` parameter. */
  const ViewUsermeta: string := "view_usermeta"
  const AddUsermeta: string := "add_usermeta"
  const BulkDownload: string := "bulk-download"

  /** The plural label the table is constructed with. */
  const Plural: string := "users"

  /** The nonce scope of each action. The bulk scope is the one the base
      class's bulk-action form is signed with, `"bulk-" + plural`. */
  const ViewNonceScope: string := "view_usermeta_nonce"
  const AddNonceScope: string := "add_usermeta_nonce"
  const BulkNonceScope: string := "bulk-" + Plural

  /** The HTTP status of the nonce-failure page. */
  const ForbiddenStatus: nat := 403

  /** A handler the dispatcher runs before ending the request. */
  datatype Handler =
    | ViewMeta(userId: nat)
    | AddMeta(userId: nat)
    | DownloadMeta(users: Param<seq<string>>)

  /** What happens to the request:
      - `InvalidNonce`: `wp_die` with the given status, passed the table page
        as its `back_link` argument; no handler runs;
      - `HandledThenExit`: the handler runs and the request exits;
      - `ContinueRendering`: no action applies and the table is prepared. */
  datatype Outcome =
    | InvalidNonce(status: nat, backToPage: string)
    | HandledThenExit(handler: Handler)
    | ContinueRendering

  /** The nonce scope a handler is guarded by. */
  function ScopeOf(h: Handler): string {
    match h
    case ViewMeta(_) => ViewNonceScope
    case AddMeta(_) => AddNonceScope
    case DownloadMeta(_) => BulkNonceScope
  }

  /** The three scopes are pairwise distinct. */
  lemma ScopesDistinct()
    ensures ViewNonceScope != AddNonceScope
    ensures ViewNonceScope != BulkNonceScope && AddNonceScope != BulkNonceScope
  {
    assert ViewNonceScope[0] != BulkNonceScope[0];
    assert AddNonceScope[0] != BulkNonceScope[0];
  }

  /** The token the request carries, unslashed; an absent `_wpnonce` reaches
      verification as the empty string. */
  function Token(req: Request): (t: string)
    ensures req.wpnonce.Unset? ==> t == ""
    ensures |t| <= |req.wpnonce.GetOr("")|
  {
    PhpString.Unslash(req.wpnonce.GetOr(""))
  }

  /** A nonce the browser sent as `x`, slashed by WordPress on the way in,
      reaches verification as `x`. */
  lemma TokenOfSent(req: Request, x: string)
    requires req.wpnonce == Set(PhpString.AddSlashes(x))
    ensures Token(req) == x
  {
    PhpString.UnslashAddSlashes(x);
  }

  /** `wp_verify_nonce` of the request's token for `scope`. */
  predicate NonceVerifies(verify: (string, string) -> bool, req: Request, scope: string) {
    verify(Token(req), scope)
  }

  /** `invalid_nonce_redirect`: `wp_die` with response 403, passed the
      unslashed table page as `back_link`. */
  function NonceFailure(req: Request): (o: Outcome)
    ensures o.InvalidNonce? && o.status == ForbiddenStatus
    ensures o.backToPage == PhpString.Unslash(req.page.GetOr(""))
  {
    InvalidNonce(ForbiddenStatus, PhpString.Unslash(req.page.GetOr("")))
  }

  /** The nonce failure reached from a followed row-action link passes, as
      `back_link`, the page the link came from: the request slashing of
      `page` is undone. */
  lemma NonceFailureLinksBack(link: RowActionLink)
    requires link.page.Set?
    ensures NonceFailure(FollowLink(link)).backToPage == link.page.value
  {
    PhpString.UnslashAddSlashes(link.page.value);
  }

  /** A followed row-action link never triggers a bulk download: its
      `action` is the row action's own name and `action2` is absent. */
  lemma FollowedRowLinkIsNoBulkTrigger(link: RowActionLink)
    requires link.action == ViewUsermeta || link.action == AddUsermeta
    ensures !IsBulkTrigger(FollowLink(link))
  {
    ActionNameIsPlain(link.action);
  }

  /** A bulk download is requested from the top (`action`) or bottom
      (`action2`) bulk-action selector. */
  predicate IsBulkTrigger(req: Request)
    ensures req.action == Set(BulkDownload) ==> IsBulkTrigger(req)
    ensures req.action2 == Set(BulkDownload) ==> IsBulkTrigger(req)
    ensures IsBulkTrigger(req) ==> req.action == Set(BulkDownload) || req.action2 == Set(BulkDownload)
  {
    req.action == Set(BulkDownload) || req.action2 == Set(BulkDownload)
  }

  /** The current action names one of the two row actions. */
  predicate IsRowAction(req: Request) {
    req.currentAction == Set(ViewUsermeta) || req.currentAction == Set(AddUsermeta)
  }

  /** One guarded action: run `h` and exit if the token verifies for `h`'s
      own scope, die with 403 otherwise. */
  function Guarded(verify: (string, string) -> bool, req: Request, h: Handler): (o: Outcome)
    ensures o.HandledThenExit? <==> NonceVerifies(verify, req, ScopeOf(h))
    ensures o.HandledThenExit? ==> o.handler == h
    ensures !o.HandledThenExit? ==> o == NonceFailure(req)
  {
    if !NonceVerifies(verify, req, ScopeOf(h)) then NonceFailure(req) else HandledThenExit(h)
  }

  /** `handle_table_actions`. The view and add checks come first; each of
      them ends the request whether or not its nonce verifies, so a later
      check is reached only when the current action is neither. */
  function HandleTableActions(verify: (string, string) -> bool, req: Request): (o: Outcome)
    ensures o.HandledThenExit? ==> NonceVerifies(verify, req, ScopeOf(o.handler))
    ensures o.ContinueRendering? <==> !IsRowAction(req) && !IsBulkTrigger(req)
    ensures o.InvalidNonce? ==> o.status == ForbiddenStatus
  {
    if req.currentAction == Set(ViewUsermeta) then
      Guarded(verify, req, ViewMeta(AbsInt(req.userId)))
    else if req.currentAction == Set(AddUsermeta) then
      Guarded(verify, req, AddMeta(AbsInt(req.userId)))
    else if IsBulkTrigger(req) then
      Guarded(verify, req, DownloadMeta(req.users))
    else
      ContinueRendering
  }

  /** A row action decides the outcome on its own: whatever the bulk
      selectors say, a view (add) request either dies or runs the view (add)
      handler for `absint(user_id)`, and it runs the handler exactly when
      the token verifies for that action's own scope. */
  lemma RowActionsTakePrecedence(verify: (string, string) -> bool, req: Request)
    requires IsRowAction(req)
    ensures var h := if req.currentAction == Set(ViewUsermeta)
                     then ViewMeta(AbsInt(req.userId)) else AddMeta(AbsInt(req.userId));
            HandleTableActions(verify, req) ==
              if NonceVerifies(verify, req, ScopeOf(h)) then HandledThenExit(h) else NonceFailure(req)
  {
  }

  /** A bulk download, when no row action is current, hands the selected
      users to the bulk handler exactly when the token verifies for the
      bulk scope, and dies with 403 otherwise. */
  lemma BulkDownloadDispatch(verify: (string, string) -> bool, req: Request)
    requires !IsRowAction(req) && IsBulkTrigger(req)
    ensures NonceVerifies(verify, req, BulkNonceScope) ==>
              HandleTableActions(verify, req) == HandledThenExit(DownloadMeta(req.users))
    ensures !NonceVerifies(verify, req, BulkNonceScope) ==>
              HandleTableActions(verify, req) == InvalidNonce(ForbiddenStatus, PhpString.Unslash(req.page.GetOr("")))
  {
  }

  /** A token that verifies only for a row-action scope is rejected for a
      bulk download: the request dies and no handler runs. */
  lemma RowActionTokenRejectedForBulk(verify: (string, string) -> bool, req: Request)
    requires !IsRowAction(req) && IsBulkTrigger(req)
    requires verify(Token(req), ViewNonceScope) || verify(Token(req), AddNonceScope)
    requires forall scope :: verify(Token(req), scope) ==> scope == ViewNonceScope || scope == AddNonceScope
    ensures HandleTableActions(verify, req).InvalidNonce?
  {
    ScopesDistinct();
  }

  // ---------------------------------------------------------------------
  // Row-action links
  // ---------------------------------------------------------------------

  /** The query arguments of one row-action link on `users.php`. */
  datatype RowActionLink = RowActionLink(page: Param<string>, action: string, userId: nat, nonce: string)

  /** The view and add links `column_user_login` builds for a row: each
      carries the row's ID and a nonce created for that action's own scope.
      The `page` argument repeats the current page, unslashed. */
  function RowActionLinks(row: UserRecord.Row, req: Request, create: string -> string): (links: seq<RowActionLink>)
    ensures |links| == 2
    ensures links[0].action == ViewUsermeta && links[1].action == AddUsermeta
    ensures forall i :: 0 <= i < 2 ==> links[i].userId == row.id && links[i].page == links[0].page
  {
    var page := match req.page
                case Unset => Unset
                case Set(p) => Set(PhpString.Unslash(p));
    [ RowActionLink(page, ViewUsermeta, AbsInt(Set(row.id)), create(ViewNonceScope)),
      RowActionLink(page, AddUsermeta, AbsInt(Set(row.id)), create(AddNonceScope)) ]
  }

  /** The request a browser sends when the link is followed: WordPress
      slashes every string parameter, and the base class reports the
      `action` argument as the current action. */
  function FollowLink(link: RowActionLink): Request {
    var slashedPage := match link.page
                       case Unset => Unset
                       case Set(p) => Set(PhpString.AddSlashes(link.page.value));
    Request(
      s := Unset, page := slashedPage, orderby := Unset, order := Unset,
      action := Set(PhpString.AddSlashes(link.action)), action2 := Unset,
      wpnonce := Set(PhpString.AddSlashes(link.nonce)),
      userId := Set(link.userId), users := Unset,
      currentAction := Set(PhpString.AddSlashes(link.action)))
  }

  /** The action names pass through the request slashing unchanged. */
  lemma ActionNameIsPlain(a: string)
    requires a == ViewUsermeta || a == AddUsermeta
    ensures PhpString.AddSlashes(a) == a
  {
    assert forall k :: 0 <= k < |a| ==> 'a' <= a[k] <= 'z' || a[k] == '_';
    PhpString.AddSlashesPlain(a);
  }

  /** A followed row-action link reaches the dispatcher with its own
      action as the current action, its own nonce as the token and its
      own user ID. */
  lemma FollowLinkRoundTrip(link: RowActionLink)
    requires link.action == ViewUsermeta || link.action == AddUsermeta
    ensures FollowLink(link).currentAction == Set(link.action)
    ensures Token(FollowLink(link)) == link.nonce
    ensures FollowLink(link).userId == Set(link.userId)
  {
    var r := FollowLink(link);
    ActionNameIsPlain(link.action);
    assert r.currentAction == Set(PhpString.AddSlashes(link.action));
    PhpString.UnslashAddSlashes(link.nonce);
    assert r.wpnonce == Set(PhpString.AddSlashes(link.nonce));
  }

  /** A followed add link whose nonce verifies for the add scope runs the
      add handler for the link's user ID. */
  lemma FollowedAddLinkRunsAddHandler(link: RowActionLink, verify: (string, string) -> bool)
    requires link.action == AddUsermeta && verify(link.nonce, AddNonceScope)
    ensures HandleTableActions(verify, FollowLink(link)) == HandledThenExit(AddMeta(link.userId))
  {
    FollowLinkRoundTrip(link);
    var r := FollowLink(link);
    assert r.currentAction != Set(ViewUsermeta) by {
      assert AddUsermeta[0] != ViewUsermeta[0];
    }
    assert AbsInt(r.userId) == link.userId;
  }

  /** Following a row's view link runs the view handler for the row's ID,
      provided the nonce service accepts a token it created for the same
      scope: the link and the dispatcher agree on the scope. */
  lemma ViewLinkDispatchesToViewHandler(
    row: UserRecord.Row, req: Request, create: string -> string, verify: (string, string) -> bool)
    requires verify(create(ViewNonceScope), ViewNonceScope)
    ensures HandleTableActions(verify, FollowLink(RowActionLinks(row, req, create)[0])) ==
              HandledThenExit(ViewMeta(row.id))
  {
    var link := RowActionLinks(row, req, create)[0];
    FollowLinkRoundTrip(link);
  }

  /** Following a row's add link runs the add handler for the row's ID,
      provided the nonce service accepts a token it created for the same
      scope. */
  lemma AddLinkDispatchesToAddHandler(
    row: UserRecord.Row, req: Request, create: string -> string, verify: (string, string) -> bool)
    requires verify(create(AddNonceScope), AddNonceScope)
    ensures HandleTableActions(verify, FollowLink(RowActionLinks(row, req, create)[1])) ==
              HandledThenExit(AddMeta(row.id))
  {
    var link := RowActionLinks(row, req, create)[1];
    assert link.action == AddUsermeta && link.nonce == create(AddNonceScope) && link.userId == row.id;
    FollowedAddLinkRunsAddHandler(link, verify);
  }

  /** The nonce of a view link, replayed on a bulk download, is rejected
      when the nonce service keeps scopes apart. */
  lemma ViewLinkNonceRejectedForBulk(
    row: UserRecord.Row, req: Request, create: string -> string, verify: (string, string) -> bool,
    bulk: Request)
    requires !verify(create(ViewNonceScope), BulkNonceScope)
    requires !IsRowAction(bulk) && IsBulkTrigger(bulk)
    requires bulk.wpnonce == Set(PhpString.AddSlashes(RowActionLinks(row, req, create)[0].nonce))
    ensures HandleTableActions(verify, bulk) == NonceFailure(bulk)
  {
    var link := RowActionLinks(row, req, create)[0];
    FollowLinkRoundTrip(link);
    assert Token(bulk) == Token(FollowLink(link)) == create(ViewNonceScope);
    BulkDownloadDispatch(verify, bulk);
  }
}

=== FILE: user_record.dfy ===
/**
 * One row of the users table as the list table receives it, the columns it
 * declares, the columns it marks sortable, and the ordering it asks the
 * database for.
 */
module UserRecord {
  import opened Request
  import PhpString

  /** A fetched user: the four columns the list-table query selects. */
  datatype Row = Row(login: string, displayName: string, registered: string, id: nat)

  /** The string values of a fetched row in the query's column order
      (`user_login, display_name, user_registered, ID`); the database returns
      every column, the numeric ID included, as text. */
  function Fields(row: Row): (fs: seq<string>)
    ensures |fs| == 4
  {
    [row.login, row.displayName, row.registered, PhpString.DecimalString(row.id)]
  }

  /** The columns of the table. */
  datatype Column = Checkbox | UserLogin | DisplayName | UserRegistered | UserId

  /** The internal name of a column, as used in request and array keys. */
  function Key(c: Column): string {
    match c
    case Checkbox => "cb"
    case UserLogin => "user_login"
    case DisplayName => "display_name"
    case UserRegistered => "user_registered"
    case UserId => "ID"
  }

  /** The declared columns, in display order. */
  const Columns: seq<Column> := [Checkbox, UserLogin, DisplayName, UserRegistered, UserId]

  /** The fetched row as the associative array the database returns:
      each selected column's value under the column's name. */
  function Item(row: Row): map<string, string> {
    map["user_login" := row.login, "display_name" := row.displayName,
        "user_registered" := row.registered, "ID" := PhpString.DecimalString(row.id)]
  }

  /** `column_default`: the value shown in a data column is the row's entry
      under that column's key. */
  function ColumnValue(row: Row, c: Column): (v: string)
    requires c != Checkbox
    ensures Key(c) in Item(row) && v == Item(row)[Key(c)]
  {
    match c
    case UserLogin => row.login
    case DisplayName => row.displayName
    case UserRegistered => row.registered
    case UserId => PhpString.DecimalString(row.id)
  }

  /** The data columns after the checkbox are exactly the searched fields,
      in the same order. */
  lemma FieldsFollowColumns(row: Row)
    ensures |Columns| == |Fields(row)| + 1 && Columns[0] == Checkbox
    ensures forall i :: 0 <= i < |Fields(row)| ==> Fields(row)[i] == ColumnValue(row, Columns[i + 1])
  {
  }

  /** How a sortable column sorts: the `orderby` value it sends, and whether
      its first click sorts descending. */
  datatype SortSpec = SortSpec(orderby: string, initiallyDescending: bool)

  /** The sortable-column declaration, keyed by column name. */
  const Sortable: map<string, SortSpec> := map[
    "ID" := SortSpec("ID", true),
    "display_name" := SortSpec("display_name", false),
    "user_registered" := SortSpec("user_registered", false)
  ]

  /** Every sortable column is a declared data column that sorts by its own
      name; only the ID column starts descending, and neither the checkbox
      nor the login column is sortable. */
  lemma SortableColumnsAreDataColumns()
    ensures forall k :: k in Sortable ==>
              exists i :: 1 <= i < |Columns| && Key(Columns[i]) == k
    ensures forall k :: k in Sortable ==> Sortable[k].orderby == k
    ensures forall k :: k in Sortable ==> (Sortable[k].initiallyDescending <==> k == "ID")
    ensures Key(Checkbox) !in Sortable && Key(UserLogin) !in Sortable
  {
    assert Key(Columns[2]) == "display_name";
    assert Key(Columns[3]) == "user_registered";
    assert Key(Columns[4]) == "ID";
  }

  /** The ordering the users query asks for. */
  datatype Ordering = Ordering(orderby: string, order: string)

  /** The `ORDER BY` parameters: `orderby` and `order` from the request, or
      `user_registered` ascending when absent. */
  function FetchOrdering(req: Request): (o: Ordering)
    ensures req.orderby.Set? ==> o.orderby == req.orderby.value
    ensures req.order.Set? ==> o.order == req.order.value
    ensures req.orderby.Unset? ==> o.orderby == "user_registered"
    ensures req.order.Unset? ==> o.order == "ASC"
  {
    Ordering(req.orderby.GetOr("user_registered"), req.order.GetOr("ASC"))
  }

  /** The default ordering sorts by a column the table declares sortable,
      in its declared initial direction. */
  lemma DefaultOrderingIsSortable(req: Request)
    requires req.orderby.Unset? && req.order.Unset?
    ensures FetchOrdering(req).orderby in Sortable
    ensures !Sortable[FetchOrdering(req).orderby].initiallyDescending
    ensures FetchOrdering(req).order == "ASC"
  {
  }
}
